=== FILE: README.md ===
# Partial analysis and profile building, modelled in Dafny

This project models the decision-making core of a converter. The converter
reads spectral-partial analysis files (a JSON object whose keys starting with
`p` hold one partial track each, with `time`, `freq` and `amp` sample
sequences) and turns them into an oscillator harmonic profile: a table of
`ratio; gainDB; decay` rows. The model covers `convertVutuToZebra`,
`analysePartial` and their numeric helpers in `scripts/partials.js`.

Modules, leaf first:

- `Wrappers` (`wrappers.dfy`): `Option`. `None` stands for the `null` that `analysePartial` returns.
- `JsNumber` (`js_number.dfy`): JavaScript numbers. Finite values are exact
  reals, alongside +Infinity, -Infinity and NaN. It defines the ECMAScript rules
  for `/`, multiplication by a positive constant, `Math.max`, `Math.log10` and
  the comparisons. The converter divides by values that can be zero (the
  reference frequency, the amplitude drop, the loudest amplitude), and its
  subharmonic filter keeps +Infinity but drops NaN. An `Option` could not tell
  those two apart.
- `Stats` (`stats.dfy`): `average`, the population variance under
  `standardDeviation`, the coefficient-of-variation test, `Math.max(...xs)`,
  and `indexOfMax`. `indexOfMax` is an imperative loop proved against a
  functional first-maximum definition.
- `Rounding` (`rounding.dfy`): `Math.round`, `roundToNearest`, `isEvenHarmonic`.
- `Analyser` (`analyser.dfy`): the three thresholds, `calculateDecayValue`, `analysePartial`.
- `Profile` (`profile.dfy`): the first pass, the analysis loop, the frequency
  sort, the normalisation, the subharmonic filter, `amplitudeToDecibels`, and
  `convertVutuToZebra` itself.

Functions the converter calls but that are not part of this model become
parameters:

- `Math.log10` on positive arguments is a function value `log10: real -> real`.
  Where a bound depends on it, the model assumes only `log10(1) == 0` and
  monotonicity (`Log10Assumptions`).
- `quantisePartials` and `discardEvenHarmonics` are function values in
  `Collaborators`. Their bodies are not part of this model.
- `generateEmptyCSV` and `generateZebraCSV` are represented by the result
  datatype `Output`: `EmptyTable(profileName)` or `Table(partials, profileName)`
  says which generator is called, with which arguments.

`Math.sqrt` does not appear. The stability test `stdDev / avg > 0.1` is
decided without it (`CvExceeds`). `CvTestWithoutSqrt` proves this agrees with
the JavaScript comparison, including JavaScript's division by a zero mean,
for any non-negative square root of the variance.

The four rejection tests of `analysePartial` run in the source's order:
duration, stability, loudness, decay. Each test is a total predicate, so the
order cannot change the result. `Analyse`'s contract therefore states
rejection as the disjunction of the four.

## Model

| member | source | states |
|---|---|---|
| Stats.IndexOfMax | scripts/partials.js:156-166 | returns an in-bounds index whose sample is at least every sample, with every earlier sample strictly smaller (ties go to the earliest index), and it equals the functional first maximum |
| Stats.FirstMaxIndex | scripts/partials.js:156-166 | the functional reading of the scan is the first index of a maximal sample |
| Stats.FirstMaxIsMaxOf | scripts/partials.js:106-107 | the sample at the first maximum is the value `Math.max(...amp)` computes |
| Stats.MaxOf | scripts/partials.js:38 | `Math.max(...xs)` of a non-empty sequence is one of its elements and at least every element |
| Stats.AverageBetween | scripts/partials.js:168-170 | the mean `average` computes of samples that all lie in `[lo, hi]` lies in `[lo, hi]`, so a constant sequence averages to its value |
| Stats.Variance | scripts/partials.js:149-154 | the population variance handed to `Math.sqrt` is never negative |
| Stats.VarianceZeroIff | scripts/partials.js:149-153 | the variance is zero exactly when every sample equals the mean |
| Stats.VarianceOfTwo | scripts/partials.js:149-153 | two samples `a` and `b` have variance `((a − b) / 2)²` |
| Stats.ConstantNeverExceeds | scripts/partials.js:172-176 | samples sharing one value never have a coefficient of variation above a non-negative limit |
| Analyser.WanderingExample | scripts/partials.js:99-103 | a partial gliding from 100 Hz to 200 Hz (variance 2500 against (10% of 150)² = 225) fails the stability test and is rejected |
| Analyser.SteadyNeverWanders | scripts/partials.js:99-103 | a partial holding one frequency always passes the stability test |
| Stats.CvTestWithoutSqrt | scripts/partials.js:172-176 | for any non-negative root `sd` of the variance, JavaScript's `sd / avg > limit` holds exactly when the square-root-free test holds: variance above `(limit·avg)²` for a positive mean, never for a negative mean, and variance above 0 for a zero mean (Infinity versus NaN) |
| Rounding.Round | scripts/partials.js:193 | `Math.round(x)` is the integer in `(x − 0.5, x + 0.5]` |
| Rounding.RoundToNearest | scripts/partials.js:188-190 | with a non-zero step the result is an integer multiple of the step, within half a step of the value, and its quotient by the step lies in `(value/step − 0.5, value/step + 0.5]`, so a tie goes to the multiple `Math.round` picks; a zero step gives NaN |
| Rounding.RoundToNearestTies | scripts/partials.js:188-190 | exact half steps: `(1.5, 1)` gives 2, `(1.5, −1)` gives 1, `(0.25, 0.5)` gives 0.5 |
| Rounding.IsEvenHarmonicIff | scripts/partials.js:192-197 | a ratio is an even harmonic exactly when it lies strictly within 0.5 of a positive even integer |
| Rounding.IsEvenHarmonicExamples | scripts/partials.js:192-197 | 2, 1.6, 2.4 and 4.49 are even harmonics; 3, 2.6, 1.5, 2.5, 0, 0.2 and −2 are not |
| Analyser.CalculateDecayValue | scripts/partials.js:182-186 | after the peak, a positive amplitude drop gives a positive finite value that, multiplied by the drop, gives the duration; no drop gives +Infinity |
| Analyser.Analyse | scripts/partials.js:92-133 | rejects exactly when the track ends before 30% of the total duration, its frequency CV exceeds 0.1, its maximum amplitude is under 1% of the global maximum, or its end is not after its first peak; a summary carries the frequency at the first peak, the maximum amplitude, the last amplitude, the peak and end times (end after peak), and the decay value peak-to-end duration over amplitude drop |
| Analyser.PeakAtEndIsRejected | scripts/partials.js:106-119 | a track whose loudest sample is only its last is rejected, whatever the other tests say |
| Profile.FirstPass | scripts/partials.js:32-42 | total duration and global maximum amplitude are non-negative, at least every partial's end time and every partial amplitude sample, and each is 0 or attained by some partial |
| Profile.FirstPassIgnoresMetadata | scripts/partials.js:34-35 | dropping every key that does not start with `p` leaves the first pass unchanged |
| Profile.AnalyseAll | scripts/partials.js:45-53 | the loop collects at most one summary per entry |
| Profile.AnalyseAllMembers | scripts/partials.js:45-53 | every collected summary is the non-null analysis of some partial key, and the analysis of every passing partial key is collected |
| Profile.AnalyseAllAppend | scripts/partials.js:46-53 | the loop over two runs of entries is the loop over the first followed by the loop over the second, so summaries keep the visiting order and equal summaries all stay |
| Profile.AnalyseAllSingle | scripts/partials.js:47-51 | one entry contributes exactly its analysis when it is a partial key that passes, and nothing otherwise |
| Profile.SortByFrequency | scripts/partials.js:56 | the result is a permutation of the input in ascending frequency |
| Profile.SortKeepsSortedInput | scripts/partials.js:56 | an input already in ascending frequency order, ties included, is returned unchanged |
| Profile.Survivors | scripts/partials.js:44-63 | the survivors are the collected summaries reordered (the same multiset, duplicates included), in ascending frequency, so the reference frequency is their minimum; a summary is among them exactly when some partial's analysis yields it |
| Profile.SurvivorsAreAudible | scripts/partials.js:105-110 | every survivor's peak is at least 1% of the global maximum, which is not negative |
| Profile.NoSurvivorsIffNoPartialPasses | scripts/partials.js:58-61 | the survivor list is empty exactly when every partial is rejected |
| Profile.DecibelsCases | scripts/partials.js:178-180 | `20 * Math.log10(amp / ref)` is 20 times the logarithm of a positive ratio, −Infinity for a zero amplitude, NaN for a negative ratio, and against a zero reference +Infinity for a positive amplitude and NaN otherwise |
| Profile.DecibelsAtMostZero | scripts/partials.js:178-180 | with a monotone `log10` where `log10(1) = 0`, an amplitude between 0 and a positive reference is at most 0 dB: exactly 0 dB at the reference and −Infinity at 0 |
| Profile.Normalise | scripts/partials.js:67-73 | one row per survivor; what each column holds is stated by `NormaliseRatio`, the gain lemmas (`LoudestGainIsZero`, `GainsAtMostZero`, `GainsFollowPeaks`) and the decay lemmas (`DecaysAtMostOne`, `InfiniteDecayDominates`, `DecayColumn`) |
| Profile.NormaliseRatio | scripts/partials.js:63-69 | a row's ratio times the lowest frequency is the survivor's frequency; against a lowest frequency of 0 it is +Infinity, NaN or −Infinity by the sign of the frequency |
| Profile.GainsFollowPeaks | scripts/partials.js:64-70 | against a positive loudest peak, a survivor whose non-negative peak is no louder than another's gets no more decibels, and a silent one gets strictly fewer than a sounding one |
| JsNumber.Div | scripts/partials.js:69-71 | JavaScript's `/`: a finite value over a non-zero finite one is the number that times the divisor gives the dividend; over 0 it is +Infinity, −Infinity or NaN by the dividend's sign; a NaN argument, or an infinity over an infinity, gives NaN |
| JsNumber.MaxOfNums | scripts/partials.js:65 | `Math.max(...)` over JavaScript numbers: −Infinity for none; otherwise one of the elements, NaN exactly when some element is NaN, and else at least every element |
| Profile.LoudestGainIsZero | scripts/partials.js:64-70 | every survivor at the loudest peak gets exactly 0 dB when that peak is non-zero, so some survivor does |
| Profile.GainsAtMostZero | scripts/partials.js:64-70 | with a positive loudest peak and no negative peak, every gain is at most 0 dB |
| Profile.SurvivorGainsAtMostZero | scripts/partials.js:27-70 | when the file's loudest amplitude is positive, every normalised survivor is at most 0 dB and one is exactly 0 dB |
| Profile.DecaysAtMostOne | scripts/partials.js:65-71 | with a positive finite maximum decay value, no decay exceeds 1, a positive decay value normalises into (0, 1], and the maximal one normalises to 1 |
| Profile.InfiniteDecayDominates | scripts/partials.js:65-71 | when some survivor has an infinite decay value, the maximum is +Infinity: finite decay values normalise to 0 and infinite ones to NaN |
| Profile.DecayColumn | scripts/partials.js:65-71 | for decay values that are positive or +Infinity: a finite largest value puts every decay in (0, 1]; otherwise the largest is +Infinity and every decay is 0 or NaN, NaN exactly for the infinite decay values |
| Profile.SurvivorDecays | scripts/partials.js:44-71 | the decay column of a file's real survivors: in (0, 1] when their largest decay value is finite, else 0 for finite decay values and NaN for infinite ones |
| Profile.FilterSubharmonics | scripts/partials.js:76 | a partial is kept exactly when it is in the input with a ratio of at least 1 (never NaN) |
| Profile.FilterCounts | scripts/partials.js:76 | every copy of a partial with ratio at least 1 is kept and no copy of any other |
| Profile.FilterAppend | scripts/partials.js:76 | filtering two lists one after the other is filtering each and joining the results, so the kept partials keep their order |
| Profile.FilterKeepsAllAbove | scripts/partials.js:76 | a list with no subharmonic passes the filter unchanged |
| Profile.RatioOrder | scripts/partials.js:69-76 | two frequencies at or above the reference whose ratios both pass the filter have those ratios in ascending order, for a positive, zero or negative reference |
| Profile.FilteredRatiosAscending | scripts/partials.js:63-76 | after the subharmonic filter the partials are in ascending ratio order |
| Profile.PositiveReferenceKeepsAll | scripts/partials.js:63-76 | with a positive lowest frequency every ratio is finite and at least 1, the reference ratio is exactly 1, and the filter keeps everything |
| Profile.Convert | scripts/partials.js:27-90 | the result carries the options' profile name; no survivors give the empty table; otherwise the result is the empty table exactly when the optional steps leave no partial, and a table holds exactly the partials they leave; without quantise or odd-only, the table is in ascending ratio order with no subharmonic |
| Profile.ConvertKeepsEverySurvivor | scripts/partials.js:63-89 | without the optional steps and with a positive lowest frequency, the table holds every survivor, and its first row has ratio 1 |
| Profile.SinglePartialScenario | scripts/partials.js:27-90 | one steady 100 Hz partial, at times 0 and 1 with amplitudes 1 and 0.5, gives the single row ratio 1, 0 dB, decay 1 |

## Left out

- DOM wiring, event handlers and the `selectedFiles` global (lines 7-25): user interface code. The handler bodies are empty.
- `parseVutuFile` (lines 137-144): JSON parsing. The model takes already-parsed entries.
- `for...in` key order: the input is a sequence of (key, value) entries in visiting order. Duplicate keys are not excluded.
- Malformed tracks: the model requires every `p` key to hold a track with at least one sample and three sequences of one length (`WellFormed`). A `p` key holding anything else, such as a number under a key `pitch`, makes `partial.time.length` (line 37) throw a TypeError that `convertVutuToZebra` passes on to its caller; arrays of unequal length are outside the file format. Of those, only an empty array, or an `amp` array longer than `time` or `freq`, makes the code read `undefined` past an end; a longer `time` or `freq` is read safely. The model excludes every unequal shape and represents neither the exception nor those reads. Time-ascending order is not required, because the code never relies on it.
- IEEE-754 rounding of finite values and the sign of zero: finite numbers are exact reals. `Math.max(+0, -0)` and division by -0 are therefore not distinguished. Argument-count limits of spread calls are not modelled.
- `Math.sqrt` and `Math.log10`: `log10` is a parameter, and bounds assume only `log10(1) == 0` and monotonicity. `Math.sqrt` is replaced by the equivalent square-root-free test.
- `quantisePartials`, `discardEvenHarmonics`, `generateZebraCSV` and `generateEmptyCSV` are called but not defined in `scripts/partials.js`. They are parameters or the `Output` datatype. Quantisation and odd-only idempotence are properties of those missing bodies, so they are not stated.
- Profile.Convert: states ratio order and the absence of subharmonics only when neither optional step runs. With them, the order depends on the missing bodies of `quantisePartials` and `discardEvenHarmonics`.
- A 256-partial loudness cap: `scripts/partials.js` has no such step, so the model has none.
- Rounding.IsEvenHarmonic: takes a finite real. The ratios it would receive are JavaScript numbers, and +Infinity passes the subharmonic filter; `isEvenHarmonic(Infinity)` is false because `Infinity % 2` is NaN. Its callers are not part of this model.
- Rounding.RoundToNearest: takes finite reals. With an infinite or NaN value the JavaScript result is infinite or NaN; its callers are not part of this model.
- Stats.Average: carries no postcondition of its own; the mean is bounded by `Stats.AverageBetween`, not given in closed form for every input.
- Profile.AmplitudeToDecibels: carries no postcondition of its own; its value in every case is stated by `Profile.DecibelsCases`.
- JsNumber.Div: its contract states the finite, zero-divisor and NaN cases; the mixed cases (a finite value over an infinity, an infinity over a finite value) follow ECMAScript in its definition but are not part of its contract.
- Profile.SortByFrequency: stability is implemented, since each element goes after earlier equal frequencies. It is stated only through `SortKeepsSortedInput`, not as a general property of reordering ties.

=== FILE: analyser.dfy ===
/**
 The partial analyser (`analysePartial`): it screens one partial track
 against the global context of its file and either rejects it (`None`, the
 JavaScript's `null`) or reduces it to a summary taken at the sample of peak
 amplitude.
 */
module Analyser {
  import opened Wrappers
  import opened JsNumber
  import opened Stats

  /** A partial must last at least 30% of the file's total duration. */
  const MinDurationRatio: real := 0.3
  /** The coefficient of variation of a partial's frequency may not exceed 10%. */
  const MaxFrequencyCv: real := 0.1
  /** A partial's peak amplitude must reach 1% of the loudest amplitude in the file. */
  const MinAmplitudeRatio: real := 0.01

  /** One partial's samples: time, frequency and amplitude, index by index. */
  datatype Track = Track(time: seq<real>, freq: seq<real>, amp: seq<real>)

  /** What the analyser needs of a track: samples, and three sequences of one length,
      as the file format provides them. With an empty array, or an amplitude
      array longer than the time or frequency array, the JavaScript reads past
      an end. */
  predicate ValidTrack(t: Track) {
    |t.time| > 0 && |t.freq| == |t.time| && |t.amp| == |t.time|
  }

  /** The summary of a partial that passed every test. */
  datatype Analysed = Analysed(
    frequency: real,
    peakAmp: real,
    decayValue: Num,
    timeAtPeak: real,
    timeAtEnd: real,
    finalAmp: real)

  /** The duration test: the partial ends before 30% of the total duration. */
  predicate TooShort(t: Track, totalDuration: real)
    requires ValidTrack(t)
  {
    Last(t.time) < totalDuration * MinDurationRatio
  }

  /** The stability test: the frequency wanders by more than 10% of its mean. */
  predicate Wandering(t: Track)
    requires ValidTrack(t)
  {
    CvExceeds(t.freq, MaxFrequencyCv)
  }

  /** The loudness test: the partial's loudest sample is under 1% of the loudest in the file. */
  predicate TooQuiet(t: Track, globalMaxAmp: real)
    requires ValidTrack(t)
  {
    MaxOf(t.amp) < globalMaxAmp * MinAmplitudeRatio
  }

  /** The decay test: no time passes between the first peak and the last sample. */
  predicate NotDecaying(t: Track)
    requires ValidTrack(t)
  {
    Last(t.time) <= t.time[FirstMaxIndex(t.amp)]
  }

  /**
   `calculateDecayValue`: time from peak to end per unit of amplitude lost
   in that time. A partial that ends as loud as its peak divides a positive
   duration by zero, which JavaScript answers with Infinity.
   */
  function CalculateDecayValue(peakAmp: real, finalAmp: real, timeAtPeak: real, timeAtEnd: real): (r: Num)
    ensures timeAtEnd > timeAtPeak && peakAmp > finalAmp ==>
              r.Fin? && r.v > 0.0 && r.v * (peakAmp - finalAmp) == timeAtEnd - timeAtPeak
    ensures timeAtEnd > timeAtPeak && peakAmp == finalAmp ==> r == PosInf
  {
    var duration := timeAtEnd - timeAtPeak;
    var amplitudeDrop := peakAmp - finalAmp;
    Div(Fin(duration), Fin(amplitudeDrop))
  }

  /**
   `analysePartial`. The four tests run in the order duration, stability,
   loudness, decay, and the first that fails rejects the track; since each
   test is total, the order decides nothing about the result. A surviving
   track is summarised at its first sample of maximal amplitude.
   */
  function Analyse(t: Track, globalMaxAmp: real, totalDuration: real): (r: Option<Analysed>)
    requires ValidTrack(t)
    ensures r.None? <==>
              TooShort(t, totalDuration) || Wandering(t) || TooQuiet(t, globalMaxAmp) || NotDecaying(t)
    ensures r.Some? ==>
              var a := r.value;
              var k := FirstMaxIndex(t.amp);
              && a.frequency == t.freq[k]
              && a.peakAmp == MaxOf(t.amp) >= globalMaxAmp * MinAmplitudeRatio
              && a.finalAmp == Last(t.amp) <= a.peakAmp
              && a.timeAtPeak == t.time[k]
              && a.timeAtEnd == Last(t.time) > a.timeAtPeak
              && a.timeAtEnd >= totalDuration * MinDurationRatio
              && (a.finalAmp < a.peakAmp ==>
                    && a.decayValue.Fin? && a.decayValue.v > 0.0
                    && a.decayValue.v * (a.peakAmp - a.finalAmp) == a.timeAtEnd - a.timeAtPeak)
              && (a.finalAmp == a.peakAmp ==> a.decayValue == PosInf)
  {
    var partialDuration := Last(t.time);
    if partialDuration < totalDuration * MinDurationRatio then
      assert TooShort(t, totalDuration);
      None
    else if CvExceeds(t.freq, MaxFrequencyCv) then
      assert Wandering(t);
      None
    else
      var maxAmpIndex := FirstMaxIndex(t.amp);
      var peakAmp := t.amp[maxAmpIndex];
      FirstMaxIsMaxOf(t.amp);
      if peakAmp < globalMaxAmp * MinAmplitudeRatio then
        assert TooQuiet(t, globalMaxAmp);
        None
      else
        var timeAtPeak := t.time[maxAmpIndex];
        var timeAtEnd := Last(t.time);
        if timeAtEnd <= timeAtPeak then
          assert NotDecaying(t);
          None
        else
          var frequency := t.freq[maxAmpIndex];
          var finalAmp := Last(t.amp);
          assert finalAmp <= peakAmp by {
            assert t.amp[|t.amp| - 1] <= t.amp[maxAmpIndex];
          }
          var decayValue := CalculateDecayValue(peakAmp, finalAmp, timeAtPeak, timeAtEnd);
          assert !TooShort(t, totalDuration) && !Wandering(t) && !TooQuiet(t, globalMaxAmp) && !NotDecaying(t);
          Some(Analysed(frequency, peakAmp, decayValue, timeAtPeak, timeAtEnd, finalAmp))
  }

  /** A partial gliding from 100 Hz to 200 Hz wanders: its frequency variance of 2500 exceeds (10% of 150)^2 = 225, so the analyser rejects it. */
  lemma WanderingExample(globalMaxAmp: real, totalDuration: real)
    ensures var t := Track([0.0, 1.0], [100.0, 200.0], [1.0, 0.5]);
            Wandering(t) && Analyse(t, globalMaxAmp, totalDuration).None?
  {
    var t := Track([0.0, 1.0], [100.0, 200.0], [1.0, 0.5]);
    VarianceOfTwo(100.0, 200.0);
    assert [100.0, 200.0][..1] == [100.0] && [100.0][..0] == [];
    assert Average(t.freq) == 150.0;
  }

  /** A partial holding one frequency never wanders. */
  lemma SteadyNeverWanders(t: Track)
    requires ValidTrack(t)
    requires forall i :: 0 <= i < |t.freq| ==> t.freq[i] == t.freq[0]
    ensures !Wandering(t)
  {
    ConstantNeverExceeds(t.freq, MaxFrequencyCv);
  }

  /**
   A track whose amplitude is loudest only at its last sample has its first
   peak at its end, so no time passes after the peak and the decay test
   rejects it, whatever the other tests say.
   */
  lemma PeakAtEndIsRejected(t: Track, globalMaxAmp: real, totalDuration: real)
    requires ValidTrack(t)
    requires forall j :: 0 <= j < |t.amp| - 1 ==> t.amp[j] < Last(t.amp)
    ensures Analyse(t, globalMaxAmp, totalDuration).None?
  {
    var k := FirstMaxIndex(t.amp);
    var n := |t.amp| - 1;
    assert IsFirstMaxOfPrefix(t.amp, |t.amp|, n);
    FirstMaxUnique(t.amp, |t.amp|, k, n);
    assert NotDecaying(t);
  }
}

=== FILE: js_number.dfy ===
/**
 JavaScript numbers, as far as the profile builder needs them.

 The inputs of the converter are finite numbers, modelled as exact reals.
 Some of its intermediate values are not: a division by zero yields
 Infinity or NaN, `Math.log10(0)` is -Infinity, and `Math.max` propagates
 NaN. `Num` carries those four kinds of value and the operations below
 follow the ECMAScript rules for them. Rounding of finite doubles and the
 sign of zero are not modelled.
 */
module JsNumber {

  datatype Num = Fin(v: real) | PosInf | NegInf | NaN

  /** `a <= b`; false whenever either side is NaN. */
  predicate Le(a: Num, b: Num) {
    if a.NaN? || b.NaN? then false
    else if a.NegInf? || b.PosInf? then true
    else if a.PosInf? || b.NegInf? then false
    else a.v <= b.v
  }

  /** `a < b`; false whenever either side is NaN. */
  predicate Lt(a: Num, b: Num) {
    if a.NaN? || b.NaN? then false
    else if a.Fin? && b.Fin? then a.v < b.v
    else (a.NegInf? && !b.NegInf?) || (!a.PosInf? && b.PosInf?)
  }

  predicate Ge(a: Num, b: Num) { Le(b, a) }

  predicate Gt(a: Num, b: Num) { Lt(b, a) }

  /** `a / b`. */
  function Div(a: Num, b: Num): (r: Num)
    ensures a.Fin? && b.Fin? && b.v != 0.0 ==> r.Fin? && r.v * b.v == a.v
    ensures a.Fin? && b.Fin? && b.v == 0.0 ==>
              (r.NaN? <==> a.v == 0.0) && (r.PosInf? <==> a.v > 0.0) && (r.NegInf? <==> a.v < 0.0)
    ensures a.NaN? || b.NaN? || (!a.Fin? && !b.Fin?) ==> r.NaN?
  {
    if a.NaN? || b.NaN? then NaN
    else if a.Fin? && b.Fin? then
      if b.v != 0.0 then Fin(a.v / b.v)
      else if a.v > 0.0 then PosInf
      else if a.v < 0.0 then NegInf
      else NaN
    else if a.Fin? then Fin(0.0)
    else if b.Fin? then (if a.PosInf? == (b.v >= 0.0) then PosInf else NegInf)
    else NaN
  }

  /**
   The mixed cases of `a / b`: a finite value over an infinity is 0, and an
   infinity over a finite value is an infinity whose sign is the product of
   the signs (a zero divisor counts as +0).
   */
  lemma DivInfiniteCases(a: Num, b: Num)
    ensures a.Fin? && (b.PosInf? || b.NegInf?) ==> Div(a, b) == Fin(0.0)
    ensures (a.PosInf? || a.NegInf?) && b.Fin? ==>
              (Div(a, b).PosInf? || Div(a, b).NegInf?) && (Div(a, b).PosInf? <==> (a.PosInf? <==> b.v >= 0.0))
  {
  }

  /** `k * n` for a positive finite constant `k`. */
  function Scale(k: real, n: Num): Num
    requires k > 0.0
  {
    match n
    case Fin(x) => Fin(k * x)
    case _ => n
  }

  /** `Math.max(a, b)`. */
  function Max(a: Num, b: Num): Num {
    if a.NaN? || b.NaN? then NaN
    else if Le(a, b) then b
    else a
  }

  /** `Math.max(...xs)`: -Infinity for no arguments, NaN as soon as one is NaN. */
  function MaxOfNums(xs: seq<Num>): (r: Num)
    ensures |xs| == 0 ==> r == NegInf
    ensures |xs| > 0 ==> r in xs
    ensures r.NaN? <==> exists i :: 0 <= i < |xs| && xs[i].NaN?
    ensures !r.NaN? ==> forall i :: 0 <= i < |xs| ==> Le(xs[i], r)
  {
    if |xs| == 0 then NegInf
    else
      var prefix := xs[..|xs| - 1];
      var m := MaxOfNums(prefix);
      assert forall i :: 0 <= i < |prefix| ==> prefix[i] == xs[i];
      Max(m, xs[|xs| - 1])
  }

  /** `Math.log10(n)`, where `log10` gives the logarithm of a positive finite argument. */
  function Log10(log10: real -> real, n: Num): Num {
    match n
    case NaN => NaN
    case NegInf => NaN
    case PosInf => PosInf
    case Fin(x) => if x < 0.0 then NaN else if x == 0.0 then NegInf else Fin(log10(x))
  }

  /** What the model assumes of `Math.log10` wherever it states a bound: it is monotone
      on the positive reals and `Math.log10(1) == 0`. */
  ghost predicate Log10Assumptions(log10: real -> real) {
    && log10(1.0) == 0.0
    && forall x: real, y: real {:trigger log10(x), log10(y)} :: 0.0 < x <= y ==> log10(x) <= log10(y)
  }
}

=== FILE: profile.dfy ===
/**
 The profile builder (`convertVutuToZebra`): from a parsed analysis file it
 finds the file's total duration and loudest amplitude, analyses every
 partial, sorts the survivors by frequency, normalises them against the
 lowest frequency, the loudest peak and the largest decay value, drops
 subharmonics, and hands the rest to the optional quantise and odd-only
 steps and to the table generator.
 */
module Profile {
  import opened Wrappers
  import opened JsNumber
  import opened Stats
  import opened Analyser

  /** The value under one key of the parsed file: a partial's track, or anything else. */
  datatype Value = PartialTrack(track: Track) | Metadata

  /** One key of the parsed file, in the order a `for...in` loop visits it. */
  datatype Entry = Entry(key: string, value: Value)

  /** `key.startsWith('p')`: the keys the converter treats as partials. */
  predicate IsPartialKey(key: string) {
    |key| > 0 && key[0] == 'p'
  }

  /** Every partial key holds a track the analyser can read. */
  predicate WellFormed(input: seq<Entry>) {
    forall e :: e in input && IsPartialKey(e.key) ==> e.value.PartialTrack? && ValidTrack(e.value.track)
  }

  datatype Options = Options(profileName: string, quantise: bool, oddOnly: bool)

  /** One row of the profile: frequency ratio, gain in decibels and normalised decay. */
  datatype Partial = Partial(ratio: Num, gainDB: Num, decay: Num)

  /**
   The functions the converter calls but that are not part of this model:
   `Math.log10` on positive arguments, `quantisePartials` and
   `discardEvenHarmonics`.
   */
  datatype Collaborators = Collaborators(
    log10: real -> real,
    quantisePartials: seq<Partial> -> seq<Partial>,
    discardEvenHarmonics: seq<Partial> -> seq<Partial>)

  /** Which table generator the converter returns: `generateEmptyCSV(profileName)`
      or `generateZebraCSV(partials, profileName)`. */
  datatype Output = EmptyTable(profileName: string) | Table(partials: seq<Partial>, profileName: string)

  /** The result of the first pass over the file. */
  datatype Extent = Extent(totalDuration: real, globalMaxAmp: real)

  /**
   The first pass: the latest end time and the loudest amplitude over all
   partials, each starting from 0. Keys that are not partials are skipped.
   */
  function FirstPass(input: seq<Entry>): (r: Extent)
    requires WellFormed(input)
    ensures r.totalDuration >= 0.0 && r.globalMaxAmp >= 0.0
    ensures forall e :: e in input && IsPartialKey(e.key) ==> Last(e.value.track.time) <= r.totalDuration
    ensures forall e, j :: e in input && IsPartialKey(e.key) && 0 <= j < |e.value.track.amp| ==>
              e.value.track.amp[j] <= r.globalMaxAmp
    ensures r.totalDuration == 0.0 ||
              exists e :: e in input && IsPartialKey(e.key) && Last(e.value.track.time) == r.totalDuration
    ensures r.globalMaxAmp == 0.0 ||
              exists e :: e in input && IsPartialKey(e.key) && MaxOf(e.value.track.amp) == r.globalMaxAmp
  {
    if |input| == 0 then Extent(0.0, 0.0)
    else
      var prefix := input[..|input| - 1];
      var e := input[|input| - 1];
      assert input == prefix + [e];
      assert forall x :: x in input <==> x in prefix || x == e;
      var before := FirstPass(prefix);
      if IsPartialKey(e.key) then
        var partialEnd := Last(e.value.track.time);
        var partialMaxAmp := MaxOf(e.value.track.amp);
        Extent(RealMax(before.totalDuration, partialEnd), RealMax(before.globalMaxAmp, partialMaxAmp))
      else
        before
  }

  /** The entries with partial keys, in their original order. */
  function PartialEntries(input: seq<Entry>): (r: seq<Entry>)
    ensures forall e :: e in r <==> e in input && IsPartialKey(e.key)
  {
    if |input| == 0 then []
    else
      var prefix := input[..|input| - 1];
      var e := input[|input| - 1];
      assert input == prefix + [e];
      PartialEntries(prefix) + (if IsPartialKey(e.key) then [e] else [])
  }

  /** Removing every entry that is not a partial changes nothing in the first pass. */
  lemma {:induction false} FirstPassIgnoresMetadata(input: seq<Entry>)
    requires WellFormed(input)
    ensures WellFormed(PartialEntries(input))
    ensures FirstPass(PartialEntries(input)) == FirstPass(input)
  {
    if |input| > 0 {
      var prefix := input[..|input| - 1];
      var e := input[|input| - 1];
      assert input == prefix + [e];
      assert WellFormed(prefix) by {
        forall x | x in prefix
          ensures x in input
        {
        }
      }
      FirstPassIgnoresMetadata(prefix);
      var kept := PartialEntries(prefix);
      if IsPartialKey(e.key) {
        assert PartialEntries(input) == kept + [e];
        assert (kept + [e])[..|kept|] == kept;
        calc {
          FirstPass(kept + [e]);
          Extent(RealMax(FirstPass(kept).totalDuration, Last(e.value.track.time)),
                 RealMax(FirstPass(kept).globalMaxAmp, MaxOf(e.value.track.amp)));
          FirstPass(input);
        }
      } else {
        assert PartialEntries(input) == kept;
      }
    }
  }

  /** The analysis loop: the non-rejected summaries, in the order of the entries. */
  function AnalyseAll(input: seq<Entry>, globalMaxAmp: real, totalDuration: real): (r: seq<Analysed>)
    requires WellFormed(input)
    ensures |r| <= |input|
  {
    if |input| == 0 then []
    else
      var prefix := input[..|input| - 1];
      var e := input[|input| - 1];
      assert input == prefix + [e];
      AnalyseAll(prefix, globalMaxAmp, totalDuration) + Contribution(e, globalMaxAmp, totalDuration)
  }

  /** What one entry adds to the analysis loop: its summary if it is a partial that passes. */
  function Contribution(e: Entry, globalMaxAmp: real, totalDuration: real): seq<Analysed>
    requires IsPartialKey(e.key) ==> e.value.PartialTrack? && ValidTrack(e.value.track)
  {
    if IsPartialKey(e.key) then
      match Analyse(e.value.track, globalMaxAmp, totalDuration)
      case Some(analysed) => [analysed]
      case None => []
    else
      []
  }

  /**
   The analysis loop over two runs of entries is the loop over the first
   followed by the loop over the second: one summary per passing partial,
   in visiting order, duplicates included.
   */
  lemma {:induction false} AnalyseAllAppend(a: seq<Entry>, b: seq<Entry>, globalMaxAmp: real, totalDuration: real)
    requires WellFormed(a) && WellFormed(b)
    ensures WellFormed(a + b)
    ensures AnalyseAll(a + b, globalMaxAmp, totalDuration) ==
              AnalyseAll(a, globalMaxAmp, totalDuration) + AnalyseAll(b, globalMaxAmp, totalDuration)
  {
    WellFormedAppend(a, b);
    if |b| == 0 {
      assert a + b == a;
    } else {
      var bp := b[..|b| - 1];
      var ab := a + b;
      assert ab[..|ab| - 1] == a + bp;
      assert ab[|ab| - 1] == b[|b| - 1];
      WellFormedAppend(bp, [b[|b| - 1]]);
      assert bp + [b[|b| - 1]] == b;
      AnalyseAllAppend(a, bp, globalMaxAmp, totalDuration);
      AnalyseAllLast(ab, globalMaxAmp, totalDuration);
      AnalyseAllLast(b, globalMaxAmp, totalDuration);
      var x := AnalyseAll(a, globalMaxAmp, totalDuration);
      var y := AnalyseAll(bp, globalMaxAmp, totalDuration);
      var step := Contribution(b[|b| - 1], globalMaxAmp, totalDuration);
      assert (x + y) + step == x + (y + step);
    }
  }

  /** The entries of two well-formed runs together are well formed, and the first of them on its own. */
  lemma WellFormedAppend(a: seq<Entry>, b: seq<Entry>)
    requires WellFormed(a) && WellFormed(b)
    ensures WellFormed(a + b)
  {
    forall x | x in a + b
      ensures x in a || x in b
    {
    }
  }

  /** The analysis loop unfolded once at its last entry. */
  lemma AnalyseAllLast(input: seq<Entry>, globalMaxAmp: real, totalDuration: real)
    requires WellFormed(input) && |input| > 0
    ensures WellFormed(input[..|input| - 1])
    ensures AnalyseAll(input, globalMaxAmp, totalDuration) ==
              AnalyseAll(input[..|input| - 1], globalMaxAmp, totalDuration) +
              Contribution(input[|input| - 1], globalMaxAmp, totalDuration)
  {
    assert input == input[..|input| - 1] + [input[|input| - 1]];
  }

  /**
   Every collected summary is the analysis of some partial entry, and the
   analysis of every partial entry that passes is collected.
   */
  lemma {:induction false} AnalyseAllMembers(input: seq<Entry>, globalMaxAmp: real, totalDuration: real)
    requires WellFormed(input)
    ensures forall a :: a in AnalyseAll(input, globalMaxAmp, totalDuration) ==>
              exists e :: e in input && IsPartialKey(e.key) && Analyse(e.value.track, globalMaxAmp, totalDuration) == Some(a)
    ensures forall e :: e in input && IsPartialKey(e.key) && Analyse(e.value.track, globalMaxAmp, totalDuration).Some? ==>
              Analyse(e.value.track, globalMaxAmp, totalDuration).value in AnalyseAll(input, globalMaxAmp, totalDuration)
  {
    if |input| > 0 {
      var prefix := input[..|input| - 1];
      var e := input[|input| - 1];
      assert input == prefix + [e];
      AnalyseAllLast(input, globalMaxAmp, totalDuration);
      AnalyseAllMembers(prefix, globalMaxAmp, totalDuration);
      var r := AnalyseAll(input, globalMaxAmp, totalDuration);
      var before := AnalyseAll(prefix, globalMaxAmp, totalDuration);
      var added := Contribution(e, globalMaxAmp, totalDuration);
      assert r == before + added;
      forall a | a in r
        ensures exists x :: x in input && IsPartialKey(x.key) && Analyse(x.value.track, globalMaxAmp, totalDuration) == Some(a)
      {
        if a in before {
          var x :| x in prefix && IsPartialKey(x.key) && Analyse(x.value.track, globalMaxAmp, totalDuration) == Some(a);
          assert x in input;
        } else {
          assert a in added;
          assert e in input;
        }
      }
      forall x | x in input && IsPartialKey(x.key) && Analyse(x.value.track, globalMaxAmp, totalDuration).Some?
        ensures Analyse(x.value.track, globalMaxAmp, totalDuration).value in r
      {
        if x in prefix {
          assert Analyse(x.value.track, globalMaxAmp, totalDuration).value in before;
        } else {
          assert x == e;
          assert added == [Analyse(x.value.track, globalMaxAmp, totalDuration).value];
        }
      }
    }
  }

  /** One entry contributes its summary when it is a partial that passes, and nothing otherwise. */
  lemma AnalyseAllSingle(e: Entry, globalMaxAmp: real, totalDuration: real)
    requires WellFormed([e])
    ensures IsPartialKey(e.key) ==> e.value.PartialTrack? && ValidTrack(e.value.track)
    ensures IsPartialKey(e.key) && Analyse(e.value.track, globalMaxAmp, totalDuration).Some? ==>
              AnalyseAll([e], globalMaxAmp, totalDuration) == [Analyse(e.value.track, globalMaxAmp, totalDuration).value]
    ensures !IsPartialKey(e.key) || Analyse(e.value.track, globalMaxAmp, totalDuration).None? ==>
              AnalyseAll([e], globalMaxAmp, totalDuration) == []
  {
    assert e in [e];
    assert [e][..0] == [];
  }

  predicate SortedByFrequency(s: seq<Analysed>) {
    forall i, j :: 0 <= i < j < |s| ==> s[i].frequency <= s[j].frequency
  }

  /** Inserts `a` after every element of `s` whose frequency is not above its own. */
  function InsertByFrequency(a: Analysed, s: seq<Analysed>): (r: seq<Analysed>)
    requires SortedByFrequency(s)
    ensures |r| == |s| + 1
    ensures r[0] == a || (|s| > 0 && r[0] == s[0])
    ensures multiset(r) == multiset(s) + multiset{a}
    ensures SortedByFrequency(r)
  {
    if |s| == 0 then [a]
    else if a.frequency < s[0].frequency then
      PrependSorted(a, s);
      [a] + s
    else
      var rest := InsertByFrequency(a, s[1..]);
      assert s == [s[0]] + s[1..];
      PrependSorted(s[0], rest);
      [s[0]] + rest
  }

  /** An element no higher than the head of a sorted sequence can go in front of it. */
  lemma PrependSorted(a: Analysed, s: seq<Analysed>)
    requires SortedByFrequency(s)
    requires |s| > 0 ==> a.frequency <= s[0].frequency
    ensures SortedByFrequency([a] + s)
  {
    var r := [a] + s;
    forall i, j | 0 <= i < j < |r|
      ensures r[i].frequency <= r[j].frequency
    {
      if i == 0 {
        assert r[j] == s[j - 1];
      } else {
        assert r[i] == s[i - 1] && r[j] == s[j - 1];
      }
    }
  }

  /**
   `analysedPartials.sort((a, b) => a.frequency - b.frequency)`: a stable
   sort into ascending frequency. Each element is inserted after the earlier
   ones of equal frequency, so ties keep their input order as in the
   JavaScript sort.
   */
  function SortByFrequency(s: seq<Analysed>): (r: seq<Analysed>)
    ensures SortedByFrequency(r)
    ensures multiset(r) == multiset(s)
  {
    if |s| == 0 then []
    else
      var prefix := s[..|s| - 1];
      assert s == prefix + [s[|s| - 1]];
      InsertByFrequency(s[|s| - 1], SortByFrequency(prefix))
  }

  /** An element at least as high as every other goes last, after its equals. */
  lemma {:induction false} InsertHighestGoesLast(a: Analysed, s: seq<Analysed>)
    requires SortedByFrequency(s)
    requires forall i :: 0 <= i < |s| ==> s[i].frequency <= a.frequency
    ensures InsertByFrequency(a, s) == s + [a]
  {
    if |s| > 0 {
      InsertHighestGoesLast(a, s[1..]);
      assert s == [s[0]] + s[1..];
    }
  }

  /**
   Sorting a sequence already in ascending frequency order leaves it as it
   is, equal frequencies included: the sort never reorders ties.
   */
  lemma {:induction false} SortKeepsSortedInput(s: seq<Analysed>)
    requires SortedByFrequency(s)
    ensures SortByFrequency(s) == s
  {
    if |s| > 0 {
      var prefix := s[..|s| - 1];
      var top := s[|s| - 1];
      assert s == prefix + [top];
      SortedSplitsAtLast(s, prefix, top);
      SortKeepsSortedInput(prefix);
      InsertHighestGoesLast(top, prefix);
      SortByFrequencyLast(s);
      assert prefix + [top] == s;
    }
  }

  /** A sorted sequence without its last element is sorted, and that element is at least every other. */
  lemma SortedSplitsAtLast(s: seq<Analysed>, prefix: seq<Analysed>, top: Analysed)
    requires SortedByFrequency(s) && s == prefix + [top]
    ensures SortedByFrequency(prefix)
    ensures forall i :: 0 <= i < |prefix| ==> prefix[i].frequency <= top.frequency
  {
    forall i, j | 0 <= i < j < |prefix|
      ensures prefix[i].frequency <= prefix[j].frequency
    {
      assert prefix[i] == s[i] && prefix[j] == s[j];
    }
    forall i | 0 <= i < |prefix|
      ensures prefix[i].frequency <= top.frequency
    {
      assert prefix[i] == s[i] && top == s[|s| - 1];
    }
  }

  /** The sort unfolded once at its last element. */
  lemma SortByFrequencyLast(s: seq<Analysed>)
    requires |s| > 0
    ensures SortByFrequency(s) == InsertByFrequency(s[|s| - 1], SortByFrequency(s[..|s| - 1]))
  {
  }

  /**
   The survivors of the analysis in the order the rest of the converter uses:
   exactly the summaries of the partials that pass, lowest frequency first.
   */
  function Survivors(input: seq<Entry>): (r: seq<Analysed>)
    requires WellFormed(input)
    ensures SortedByFrequency(r)
    ensures forall a :: a in r <==>
              exists e :: e in input && IsPartialKey(e.key) &&
                Analyse(e.value.track, FirstPass(input).globalMaxAmp, FirstPass(input).totalDuration) == Some(a)
    ensures |r| > 0 ==> forall a :: a in r ==> r[0].frequency <= a.frequency
    ensures multiset(r) == multiset(AnalyseAll(input, FirstPass(input).globalMaxAmp, FirstPass(input).totalDuration))
  {
    var extent := FirstPass(input);
    var analysed := AnalyseAll(input, extent.globalMaxAmp, extent.totalDuration);
    AnalyseAllMembers(input, extent.globalMaxAmp, extent.totalDuration);
    var sorted := SortByFrequency(analysed);
    SameElements(analysed, sorted);
    SortedStartsLowest(sorted);
    sorted
  }

  /** Two sequences holding the same multiset hold the same elements. */
  lemma SameElements(a: seq<Analysed>, b: seq<Analysed>)
    requires multiset(a) == multiset(b)
    ensures forall x :: x in a <==> x in b
  {
    assert forall x :: x in a <==> x in multiset(a);
    assert forall x :: x in b <==> x in multiset(b);
  }

  /** The first element of a sequence in ascending frequency order has the lowest frequency. */
  lemma SortedStartsLowest(s: seq<Analysed>)
    requires SortedByFrequency(s)
    ensures |s| > 0 ==> forall a :: a in s ==> s[0].frequency <= a.frequency
  {
  }

  /** Every survivor is at least 1% as loud as the loudest amplitude in the file, which is not negative. */
  lemma SurvivorsAreAudible(input: seq<Entry>)
    requires WellFormed(input)
    ensures forall a :: a in Survivors(input) ==>
              a.peakAmp >= FirstPass(input).globalMaxAmp * MinAmplitudeRatio >= 0.0
  {
    var extent := FirstPass(input);
    forall a | a in Survivors(input)
      ensures a.peakAmp >= extent.globalMaxAmp * MinAmplitudeRatio
    {
      var e :| e in input && IsPartialKey(e.key) &&
        Analyse(e.value.track, extent.globalMaxAmp, extent.totalDuration) == Some(a);
    }
  }

  /** `amplitudeToDecibels(amp, referenceAmp)`: `20 * Math.log10(amp / referenceAmp)`. */
  function AmplitudeToDecibels(log10: real -> real, amp: real, referenceAmp: real): Num {
    Scale(20.0, Log10(log10, Div(Fin(amp), Fin(referenceAmp))))
  }

  /**
   The values `amplitudeToDecibels` takes: 20 times the logarithm of a
   positive amplitude ratio, -Infinity for a silent amplitude, NaN for a
   negative ratio; against a zero reference, +Infinity for a positive
   amplitude and NaN otherwise.
   */
  lemma DecibelsCases(log10: real -> real, amp: real, referenceAmp: real)
    ensures referenceAmp != 0.0 && amp / referenceAmp > 0.0 ==>
              AmplitudeToDecibels(log10, amp, referenceAmp) == Fin(20.0 * log10(amp / referenceAmp))
    ensures referenceAmp != 0.0 && amp == 0.0 ==> AmplitudeToDecibels(log10, amp, referenceAmp) == NegInf
    ensures referenceAmp != 0.0 && amp / referenceAmp < 0.0 ==> AmplitudeToDecibels(log10, amp, referenceAmp) == NaN
    ensures referenceAmp == 0.0 ==>
              AmplitudeToDecibels(log10, amp, referenceAmp) == if amp > 0.0 then PosInf else NaN
  {
    if referenceAmp != 0.0 {
      assert Div(Fin(amp), Fin(referenceAmp)) == Fin(amp / referenceAmp);
    }
  }

  /**
   Against a positive reference, a non-negative amplitude no louder than it
   is at most 0 dB: exactly 0 dB when it equals the reference, -Infinity
   when it is silent.
   */
  lemma DecibelsAtMostZero(log10: real -> real, amp: real, referenceAmp: real)
    requires Log10Assumptions(log10)
    requires referenceAmp > 0.0 && 0.0 <= amp <= referenceAmp
    ensures Le(AmplitudeToDecibels(log10, amp, referenceAmp), Fin(0.0))
    ensures amp == referenceAmp ==> AmplitudeToDecibels(log10, amp, referenceAmp) == Fin(0.0)
    ensures amp == 0.0 ==> AmplitudeToDecibels(log10, amp, referenceAmp) == NegInf
  {
    DecibelsCases(log10, amp, referenceAmp);
    if amp > 0.0 {
      var q := amp / referenceAmp;
      QuotientInUnitInterval(amp, referenceAmp);
      assert log10(q) <= log10(1.0);
    }
  }

  /** `0 < a <= b` puts `a / b` in (0, 1]. */
  lemma QuotientInUnitInterval(a: real, b: real)
    requires 0.0 < a <= b
    ensures 0.0 < a / b <= 1.0
    ensures a == b ==> a / b == 1.0
  {
    var q := a / b;
    assert q * b == a;
  }

  function PeakAmps(s: seq<Analysed>): seq<real> {
    seq(|s|, i requires 0 <= i < |s| => s[i].peakAmp)
  }

  function DecayValues(s: seq<Analysed>): seq<Num> {
    seq(|s|, i requires 0 <= i < |s| => s[i].decayValue)
  }

  /**
   The normalisation: ratio to the first (lowest) frequency, gain relative to
   the loudest peak, decay relative to the largest decay value.
   */
  function Normalise(s: seq<Analysed>, log10: real -> real): (r: seq<Partial>)
    requires |s| > 0
    ensures |r| == |s|
  {
    var referenceFreq := s[0].frequency;
    var loudestAmp := MaxOf(PeakAmps(s));
    var maxDecayValue := MaxOfNums(DecayValues(s));
    seq(|s|, i requires 0 <= i < |s| => Row(s[i], referenceFreq, loudestAmp, maxDecayValue, log10))
  }

  /** The row of one survivor, against the reference frequency, the loudest peak and the largest decay value. */
  function Row(a: Analysed, referenceFreq: real, loudestAmp: real, maxDecayValue: Num, log10: real -> real): Partial {
    Partial(
      Div(Fin(a.frequency), Fin(referenceFreq)),
      AmplitudeToDecibels(log10, a.peakAmp, loudestAmp),
      Div(a.decayValue, maxDecayValue))
  }

  /**
   The ratio of row `i` of the normalisation times the lowest frequency is
   the partial's frequency; against a lowest frequency of 0 the ratio is
   +Infinity, NaN or -Infinity by the sign of the frequency.
   */
  lemma NormaliseRatio(s: seq<Analysed>, log10: real -> real, i: nat)
    requires i < |s|
    ensures var ratio := Normalise(s, log10)[i].ratio;
            s[0].frequency != 0.0 ==> ratio.Fin? && ratio.v * s[0].frequency == s[i].frequency
    ensures var ratio := Normalise(s, log10)[i].ratio;
            s[0].frequency == 0.0 ==>
              (ratio.PosInf? <==> s[i].frequency > 0.0) && (ratio.NaN? <==> s[i].frequency == 0.0) &&
              (ratio.NegInf? <==> s[i].frequency < 0.0)
  {
    var ratio := Normalise(s, log10)[i].ratio;
    assert ratio == Div(Fin(s[i].frequency), Fin(s[0].frequency));
  }

  /** The subharmonic filter keeps a partial whose ratio is `>= 1.0`; NaN is never kept. */
  predicate AboveFundamental(p: Partial) {
    Ge(p.ratio, Fin(1.0))
  }

  /** `partials.filter(p => p.ratio >= 1.0)`. */
  function FilterSubharmonics(ps: seq<Partial>): (r: seq<Partial>)
    ensures |r| <= |ps|
    ensures forall p :: p in r <==> p in ps && AboveFundamental(p)
  {
    if |ps| == 0 then []
    else if AboveFundamental(ps[0]) then [ps[0]] + FilterSubharmonics(ps[1..])
    else FilterSubharmonics(ps[1..])
  }

  /** The filter keeps every copy of a partial at or above the fundamental and no copy of any other. */
  lemma {:induction false} FilterCounts(ps: seq<Partial>, p: Partial)
    ensures multiset(FilterSubharmonics(ps))[p] == if AboveFundamental(p) then multiset(ps)[p] else 0
  {
    if |ps| > 0 {
      FilterCounts(ps[1..], p);
      assert ps == [ps[0]] + ps[1..];
      assert multiset(ps) == multiset{ps[0]} + multiset(ps[1..]);
      var rest := FilterSubharmonics(ps[1..]);
      assert multiset([ps[0]] + rest) == multiset{ps[0]} + multiset(rest);
    }
  }

  /**
   The filter works element by element and keeps the order: filtering two
   lists one after the other is filtering each and joining the results.
   */
  lemma {:induction false} FilterAppend(a: seq<Partial>, b: seq<Partial>)
    ensures FilterSubharmonics(a + b) == FilterSubharmonics(a) + FilterSubharmonics(b)
  {
    if |a| > 0 {
      var ab := a + b;
      assert ab[0] == a[0];
      assert ab[1..] == a[1..] + b;
      FilterAppend(a[1..], b);
      var head := if AboveFundamental(a[0]) then [a[0]] else [];
      var x := FilterSubharmonics(a[1..]);
      var y := FilterSubharmonics(b);
      assert FilterSubharmonics(ab) == head + (x + y);
      assert FilterSubharmonics(a) == head + x;
      assert head + (x + y) == (head + x) + y;
    } else {
      assert a + b == b;
    }
  }

  /** A filter that rejects nothing returns its input. */
  lemma {:induction false} FilterKeepsAllAbove(ps: seq<Partial>)
    requires forall i :: 0 <= i < |ps| ==> AboveFundamental(ps[i])
    ensures FilterSubharmonics(ps) == ps
  {
    if |ps| > 0 {
      FilterKeepsAllAbove(ps[1..]);
    }
  }

  predicate SortedByRatio(ps: seq<Partial>) {
    forall i, j :: 0 <= i < j < |ps| ==> Le(ps[i].ratio, ps[j].ratio)
  }

  /** Any two partials the filter keeps are in ascending ratio order. */
  predicate KeptInRatioOrder(ps: seq<Partial>) {
    forall i, j :: 0 <= i < j < |ps| && AboveFundamental(ps[i]) && AboveFundamental(ps[j]) ==>
      Le(ps[i].ratio, ps[j].ratio)
  }

  lemma {:induction false} FilterSortsKept(ps: seq<Partial>)
    requires KeptInRatioOrder(ps)
    ensures SortedByRatio(FilterSubharmonics(ps))
  {
    if |ps| > 0 {
      var rest := ps[1..];
      assert KeptInRatioOrder(rest) by {
        forall i, j | 0 <= i < j < |rest| && AboveFundamental(rest[i]) && AboveFundamental(rest[j])
          ensures Le(rest[i].ratio, rest[j].ratio)
        {
          assert rest[i] == ps[i + 1] && rest[j] == ps[j + 1];
        }
      }
      FilterSortsKept(rest);
      if AboveFundamental(ps[0]) {
        var tail := FilterSubharmonics(rest);
        forall q | q in tail
          ensures Le(ps[0].ratio, q.ratio)
        {
          var j :| 0 <= j < |rest| && rest[j] == q;
          assert ps[j + 1] == q;
        }
        var r := [ps[0]] + tail;
        forall i, j | 0 <= i < j < |r|
          ensures Le(r[i].ratio, r[j].ratio)
        {
          if i == 0 {
            assert r[j] == tail[j - 1] && r[j] in tail;
          } else {
            assert r[i] == tail[i - 1] && r[j] == tail[j - 1];
          }
        }
      }
    }
  }

  /**
   Among survivors sorted by frequency, any two ratios that pass the filter
   are in order: with a positive reference the ratio grows with the
   frequency; with a zero reference only +Infinity passes; with a negative
   reference only partials at the reference frequency itself pass, at 1.
   */
  lemma RatiosPassingInOrder(s: seq<Analysed>, log10: real -> real, i: nat, j: nat)
    requires |s| > 0 && SortedByFrequency(s)
    requires i < j < |s|
    requires AboveFundamental(Normalise(s, log10)[i]) && AboveFundamental(Normalise(s, log10)[j])
    ensures Le(Normalise(s, log10)[i].ratio, Normalise(s, log10)[j].ratio)
  {
    var n := Normalise(s, log10);
    assert n[i].ratio == Div(Fin(s[i].frequency), Fin(s[0].frequency));
    assert n[j].ratio == Div(Fin(s[j].frequency), Fin(s[0].frequency));
    RatioOrder(s[0].frequency, s[i].frequency, s[j].frequency);
  }

  /** Two frequencies at or above the reference whose ratios both pass the filter have them in order. */
  lemma RatioOrder(ref: real, f: real, g: real)
    requires ref <= f <= g
    requires Ge(Div(Fin(f), Fin(ref)), Fin(1.0)) && Ge(Div(Fin(g), Fin(ref)), Fin(1.0))
    ensures Le(Div(Fin(f), Fin(ref)), Div(Fin(g), Fin(ref)))
  {
    if ref > 0.0 {
      assert g / ref - f / ref == (g - f) / ref;
    } else if ref < 0.0 {
      AtReferenceWhenNegative(f, ref);
      AtReferenceWhenNegative(g, ref);
    }
  }

  /** Below a negative reference frequency, `f / ref >= 1` only at `f == ref`. */
  lemma AtReferenceWhenNegative(f: real, ref: real)
    requires ref < 0.0 && ref <= f
    requires f / ref >= 1.0
    ensures f == ref
  {
    assert (f / ref) * ref == f;
    assert (f / ref - 1.0) * ref == f - ref;
    assert (f / ref - 1.0) * ref <= 0.0 by {
      assert f / ref - 1.0 >= 0.0;
      assert (f / ref - 1.0) * (-ref) >= 0.0;
    }
  }

  /**
   After the subharmonic filter the partials are in ascending ratio order,
   whatever the sign of the reference frequency.
   */
  lemma FilteredRatiosAscending(s: seq<Analysed>, log10: real -> real)
    requires |s| > 0 && SortedByFrequency(s)
    ensures SortedByRatio(FilterSubharmonics(Normalise(s, log10)))
  {
    var n := Normalise(s, log10);
    forall i, j | 0 <= i < j < |n| && AboveFundamental(n[i]) && AboveFundamental(n[j])
      ensures Le(n[i].ratio, n[j].ratio)
    {
      RatiosPassingInOrder(s, log10, i, j);
    }
    FilterSortsKept(n);
  }

  /**
   With a positive lowest frequency every ratio is finite and at least 1,
   the reference partial's ratio is exactly 1, and the subharmonic filter
   keeps every partial, the reference among them.
   */
  lemma PositiveReferenceKeepsAll(s: seq<Analysed>, log10: real -> real)
    requires |s| > 0 && SortedByFrequency(s)
    requires s[0].frequency > 0.0
    ensures Normalise(s, log10)[0].ratio == Fin(1.0)
    ensures forall i :: 0 <= i < |s| ==>
              Normalise(s, log10)[i].ratio.Fin? && Normalise(s, log10)[i].ratio.v >= 1.0
    ensures FilterSubharmonics(Normalise(s, log10)) == Normalise(s, log10)
  {
    var n := Normalise(s, log10);
    var ref := s[0].frequency;
    forall i | 0 <= i < |s|
      ensures n[i].ratio.Fin? && n[i].ratio.v >= 1.0 && AboveFundamental(n[i])
    {
      assert n[i].ratio == Div(Fin(s[i].frequency), Fin(ref));
      RatioAtLeastOne(ref, s[i].frequency);
    }
    RatioAtLeastOne(ref, ref);
    assert n[0].ratio == Div(Fin(ref), Fin(ref));
    FilterKeepsAllAbove(n);
  }

  lemma RatioAtLeastOne(ref: real, f: real)
    requires 0.0 < ref <= f
    ensures Div(Fin(f), Fin(ref)).Fin? && Div(Fin(f), Fin(ref)).v >= 1.0
    ensures f == ref ==> Div(Fin(f), Fin(ref)) == Fin(1.0)
  {
    var q := f / ref;
    assert q * ref == f;
  }

  /** The loudest survivor gets exactly 0 dB, provided the loudest peak is not 0. */
  lemma LoudestGainIsZero(s: seq<Analysed>, log10: real -> real)
    requires |s| > 0
    requires log10(1.0) == 0.0
    requires MaxOf(PeakAmps(s)) != 0.0
    ensures forall i :: 0 <= i < |s| && s[i].peakAmp == MaxOf(PeakAmps(s)) ==>
              Normalise(s, log10)[i].gainDB == Fin(0.0)
    ensures exists i :: 0 <= i < |s| && Normalise(s, log10)[i].gainDB == Fin(0.0)
  {
    var peaks := PeakAmps(s);
    var loudest := MaxOf(peaks);
    var n := Normalise(s, log10);
    assert Div(Fin(loudest), Fin(loudest)) == Fin(1.0);
    assert AmplitudeToDecibels(log10, loudest, loudest) == Fin(0.0);
    forall i | 0 <= i < |s| && s[i].peakAmp == loudest
      ensures n[i].gainDB == Fin(0.0)
    {
      assert n[i].gainDB == AmplitudeToDecibels(log10, s[i].peakAmp, loudest);
    }
    var k :| 0 <= k < |peaks| && peaks[k] == loudest;
    assert s[k].peakAmp == loudest;
  }

  /**
   When the loudest peak is positive and no survivor's peak is negative,
   every gain is at most 0 dB (silent survivors get -Infinity).
   */
  lemma GainsAtMostZero(s: seq<Analysed>, log10: real -> real)
    requires |s| > 0
    requires Log10Assumptions(log10)
    requires MaxOf(PeakAmps(s)) > 0.0
    requires forall i :: 0 <= i < |s| ==> s[i].peakAmp >= 0.0
    ensures forall i :: 0 <= i < |s| ==> Le(Normalise(s, log10)[i].gainDB, Fin(0.0))
  {
    var peaks := PeakAmps(s);
    var loudest := MaxOf(peaks);
    forall i | 0 <= i < |s|
      ensures Le(Normalise(s, log10)[i].gainDB, Fin(0.0))
    {
      assert peaks[i] == s[i].peakAmp;
      DecibelsAtMostZero(log10, s[i].peakAmp, loudest);
    }
  }

  /**
   When the largest decay value is a positive finite number, no decay
   exceeds 1; a survivor with a positive finite decay value gets a decay in
   (0, 1], and those at the largest value get exactly 1.
   */
  lemma DecaysAtMostOne(s: seq<Analysed>, log10: real -> real)
    requires |s| > 0
    requires MaxOfNums(DecayValues(s)).Fin? && MaxOfNums(DecayValues(s)).v > 0.0
    ensures forall i :: 0 <= i < |s| ==> Le(Normalise(s, log10)[i].decay, Fin(1.0))
    ensures forall i :: 0 <= i < |s| && s[i].decayValue.Fin? && s[i].decayValue.v > 0.0 ==>
              Normalise(s, log10)[i].decay.Fin? && 0.0 < Normalise(s, log10)[i].decay.v <= 1.0
    ensures forall i :: 0 <= i < |s| && s[i].decayValue == MaxOfNums(DecayValues(s)) ==>
              Normalise(s, log10)[i].decay == Fin(1.0)
  {
    var decays := DecayValues(s);
    var m := MaxOfNums(decays).v;
    forall i | 0 <= i < |s|
      ensures Le(Normalise(s, log10)[i].decay, Fin(1.0))
      ensures s[i].decayValue.Fin? && s[i].decayValue.v > 0.0 ==>
                Normalise(s, log10)[i].decay.Fin? && 0.0 < Normalise(s, log10)[i].decay.v <= 1.0
    {
      assert decays[i] == s[i].decayValue;
      assert Le(s[i].decayValue, Fin(m));
      match s[i].decayValue
      case Fin(d) =>
        assert Normalise(s, log10)[i].decay == Fin(d / m);
        QuotientAtMostOne(d, m);
      case NegInf =>
        assert Normalise(s, log10)[i].decay == NegInf;
      case _ =>
    }
  }

  lemma QuotientAtMostOne(d: real, m: real)
    requires m > 0.0 && d <= m
    ensures d / m <= 1.0
    ensures d > 0.0 ==> d / m > 0.0
  {
    var q := d / m;
    assert q * m == d;
  }

  /**
   A survivor that ends as loud as its peak has an infinite decay value,
   which becomes the largest: every finite decay value is then normalised to
   0 and every infinite one to NaN (Infinity / Infinity).
   */
  lemma InfiniteDecayDominates(s: seq<Analysed>, log10: real -> real)
    requires |s| > 0
    requires forall i :: 0 <= i < |s| ==> s[i].decayValue.PosInf? || s[i].decayValue.Fin?
    requires exists i :: 0 <= i < |s| && s[i].decayValue.PosInf?
    ensures MaxOfNums(DecayValues(s)) == PosInf
    ensures forall i :: 0 <= i < |s| && s[i].decayValue.Fin? ==> Normalise(s, log10)[i].decay == Fin(0.0)
    ensures forall i :: 0 <= i < |s| && s[i].decayValue.PosInf? ==> Normalise(s, log10)[i].decay == NaN
  {
    var decays := DecayValues(s);
    var k :| 0 <= k < |s| && s[k].decayValue.PosInf?;
    assert decays[k] == PosInf;
    assert forall i :: 0 <= i < |decays| ==> decays[i] == s[i].decayValue;
  }

  /**
   Gains follow peaks: against a positive loudest peak, a survivor whose
   (non-negative) peak is no louder than another's gets no more decibels.
   */
  lemma GainsFollowPeaks(s: seq<Analysed>, log10: real -> real, i: nat, j: nat)
    requires i < |s| && j < |s|
    requires Log10Assumptions(log10)
    requires MaxOf(PeakAmps(s)) > 0.0
    requires 0.0 <= s[i].peakAmp <= s[j].peakAmp
    ensures Le(Normalise(s, log10)[i].gainDB, Normalise(s, log10)[j].gainDB)
    ensures s[i].peakAmp < s[j].peakAmp && s[i].peakAmp == 0.0 ==>
              Lt(Normalise(s, log10)[i].gainDB, Normalise(s, log10)[j].gainDB)
  {
    var loudest := MaxOf(PeakAmps(s));
    var n := Normalise(s, log10);
    assert n[i].gainDB == AmplitudeToDecibels(log10, s[i].peakAmp, loudest);
    assert n[j].gainDB == AmplitudeToDecibels(log10, s[j].peakAmp, loudest);
    DecibelsMonotone(log10, s[i].peakAmp, s[j].peakAmp, loudest);
  }

  /** Against a positive reference, `amplitudeToDecibels` keeps the order of non-negative amplitudes. */
  lemma DecibelsMonotone(log10: real -> real, a: real, b: real, referenceAmp: real)
    requires Log10Assumptions(log10)
    requires referenceAmp > 0.0 && 0.0 <= a <= b
    ensures Le(AmplitudeToDecibels(log10, a, referenceAmp), AmplitudeToDecibels(log10, b, referenceAmp))
    ensures a == 0.0 < b ==> Lt(AmplitudeToDecibels(log10, a, referenceAmp), AmplitudeToDecibels(log10, b, referenceAmp))
  {
    DecibelsCases(log10, a, referenceAmp);
    DecibelsCases(log10, b, referenceAmp);
    if a > 0.0 {
      QuotientMonotone(a, b, referenceAmp);
    } else if b > 0.0 {
      var q := b / referenceAmp;
      assert q * referenceAmp == b;
    }
  }

  /** Division by a positive number keeps order and positivity. */
  lemma QuotientMonotone(a: real, b: real, m: real)
    requires 0.0 < a <= b && m > 0.0
    ensures 0.0 < a / m <= b / m
  {
    var p, q := a / m, b / m;
    assert p * m == a && q * m == b;
  }

  /**
   The decay column when every decay value is positive or +Infinity, as the
   analysis produces them: with a finite largest value every decay lies in
   (0, 1]; otherwise the largest value is +Infinity, every decay is 0 or
   NaN, and it is NaN exactly for the infinite decay values.
   */
  lemma DecayColumn(s: seq<Analysed>, log10: real -> real)
    requires |s| > 0
    requires forall i :: 0 <= i < |s| ==> s[i].decayValue.PosInf? || (s[i].decayValue.Fin? && s[i].decayValue.v > 0.0)
    ensures var m := MaxOfNums(DecayValues(s));
            m.Fin? ==> m.v > 0.0 && forall i :: 0 <= i < |s| ==>
              Normalise(s, log10)[i].decay.Fin? && 0.0 < Normalise(s, log10)[i].decay.v <= 1.0
    ensures var m := MaxOfNums(DecayValues(s));
            !m.Fin? ==> m.PosInf? && forall i :: 0 <= i < |s| ==>
              && (Normalise(s, log10)[i].decay == Fin(0.0) || Normalise(s, log10)[i].decay.NaN?)
              && (Normalise(s, log10)[i].decay.NaN? <==> s[i].decayValue.PosInf?)
  {
    var decays := DecayValues(s);
    var m := MaxOfNums(decays);
    assert forall i :: 0 <= i < |decays| ==> decays[i] == s[i].decayValue;
    if exists i :: 0 <= i < |s| && s[i].decayValue.PosInf? {
      InfiniteDecayDominates(s, log10);
    } else {
      var k :| 0 <= k < |decays| && decays[k] == m;
      assert m.Fin? && m.v > 0.0;
      DecaysAtMostOne(s, log10);
    }
  }

  /**
   The decay column of the real survivors of a file: in (0, 1] when their
   largest decay value is finite, and otherwise 0 for the finite decay
   values and NaN for the infinite ones.
   */
  lemma SurvivorDecays(input: seq<Entry>, log10: real -> real)
    requires WellFormed(input)
    ensures var s := Survivors(input);
            var m := MaxOfNums(DecayValues(s));
            |s| > 0 ==>
              && (m.Fin? ==> forall i :: 0 <= i < |s| ==>
                    Normalise(s, log10)[i].decay.Fin? && 0.0 < Normalise(s, log10)[i].decay.v <= 1.0)
              && (!m.Fin? ==> m.PosInf? && forall i :: 0 <= i < |s| ==>
                    (Normalise(s, log10)[i].decay == Fin(0.0) || Normalise(s, log10)[i].decay.NaN?)
                    && (Normalise(s, log10)[i].decay.NaN? <==> s[i].decayValue.PosInf?))
  {
    var s := Survivors(input);
    var extent := FirstPass(input);
    if |s| > 0 {
      forall i | 0 <= i < |s|
        ensures s[i].decayValue.PosInf? || (s[i].decayValue.Fin? && s[i].decayValue.v > 0.0)
      {
        assert s[i] in s;
        var e :| e in input && IsPartialKey(e.key) &&
          Analyse(e.value.track, extent.globalMaxAmp, extent.totalDuration) == Some(s[i]);
      }
      DecayColumn(s, log10);
    }
  }

  /** The survivors, normalised and passed through the subharmonic filter. */
  function FilteredPartials(survivors: seq<Analysed>, log10: real -> real): seq<Partial>
    requires |survivors| > 0
  {
    FilterSubharmonics(Normalise(survivors, log10))
  }

  /**
   The optional steps, in the converter's order: `quantisePartials` when
   the quantise option is set, then `discardEvenHarmonics` on its result
   when the odd-only option is set.
   */
  function OptionalSteps(ps: seq<Partial>, options: Options, c: Collaborators): seq<Partial> {
    var quantised := if options.quantise then c.quantisePartials(ps) else ps;
    if options.oddOnly then c.discardEvenHarmonics(quantised) else quantised
  }

  /** Which collaborators the optional steps apply, and in which order, for each combination of options. */
  lemma OptionalStepsOrder(ps: seq<Partial>, options: Options, c: Collaborators)
    ensures !options.quantise && !options.oddOnly ==> OptionalSteps(ps, options, c) == ps
    ensures options.quantise && !options.oddOnly ==> OptionalSteps(ps, options, c) == c.quantisePartials(ps)
    ensures !options.quantise && options.oddOnly ==> OptionalSteps(ps, options, c) == c.discardEvenHarmonics(ps)
    ensures options.quantise && options.oddOnly ==>
              OptionalSteps(ps, options, c) == c.discardEvenHarmonics(c.quantisePartials(ps))
  {
  }

  /**
   `convertVutuToZebra`. With no survivor, or nothing left after the
   filters, the result is the empty table; otherwise the table of the
   remaining partials, under the profile name of the options. Without the
   optional steps the table is in ascending ratio order and holds no
   subharmonic.
   */
  function Convert(input: seq<Entry>, options: Options, c: Collaborators): (r: Output)
    requires WellFormed(input)
    ensures r.profileName == options.profileName
    ensures r.Table? ==> |r.partials| > 0
    ensures |Survivors(input)| == 0 ==> r.EmptyTable?
    ensures |Survivors(input)| > 0 ==>
              var rows := OptionalSteps(FilteredPartials(Survivors(input), c.log10), options, c);
              && (r.EmptyTable? <==> |rows| == 0)
              && (r.Table? ==> r.partials == rows)
    ensures !options.quantise && !options.oddOnly && r.Table? ==>
              SortedByRatio(r.partials) && forall p :: p in r.partials ==> AboveFundamental(p)
  {
    var analysedPartials := Survivors(input);
    if |analysedPartials| == 0 then EmptyTable(options.profileName)
    else
      var filteredPartials := FilteredPartials(analysedPartials, c.log10);
      FilteredRatiosAscending(analysedPartials, c.log10);
      var rows := OptionalSteps(filteredPartials, options, c);
      if |rows| == 0 then EmptyTable(options.profileName)
      else Table(rows, options.profileName)
  }

  /** No partial passes the analysis exactly when the converter falls back to the empty table
      before normalising anything. */
  lemma NoSurvivorsIffNoPartialPasses(input: seq<Entry>)
    requires WellFormed(input)
    ensures |Survivors(input)| == 0 <==>
              forall e :: e in input && IsPartialKey(e.key) ==>
                Analyse(e.value.track, FirstPass(input).globalMaxAmp, FirstPass(input).totalDuration).None?
  {
    var extent := FirstPass(input);
    var s := Survivors(input);
    if |s| > 0 {
      assert s[0] in s;
    } else {
      assert forall a :: a !in s;
    }
  }

  /**
   When the loudest amplitude in the file is positive, every normalised
   survivor has a gain of at most 0 dB and some survivor has exactly 0 dB.
   */
  lemma SurvivorGainsAtMostZero(input: seq<Entry>, log10: real -> real)
    requires WellFormed(input)
    requires Log10Assumptions(log10)
    requires FirstPass(input).globalMaxAmp > 0.0
    ensures var s := Survivors(input);
              |s| > 0 ==>
                && (forall i :: 0 <= i < |s| ==> Le(Normalise(s, log10)[i].gainDB, Fin(0.0)))
                && (exists i :: 0 <= i < |s| && Normalise(s, log10)[i].gainDB == Fin(0.0))
  {
    var s := Survivors(input);
    var globalMaxAmp := FirstPass(input).globalMaxAmp;
    if |s| > 0 {
      SurvivorsAreAudible(input);
      forall i | 0 <= i < |s|
        ensures s[i].peakAmp >= globalMaxAmp * MinAmplitudeRatio
      {
        assert s[i] in s;
      }
      AudibleGains(s, globalMaxAmp, log10);
    }
  }

  lemma AudibleGains(s: seq<Analysed>, globalMaxAmp: real, log10: real -> real)
    requires |s| > 0 && globalMaxAmp > 0.0
    requires Log10Assumptions(log10)
    requires forall i :: 0 <= i < |s| ==> s[i].peakAmp >= globalMaxAmp * MinAmplitudeRatio
    ensures forall i :: 0 <= i < |s| ==> Le(Normalise(s, log10)[i].gainDB, Fin(0.0))
    ensures exists i :: 0 <= i < |s| && Normalise(s, log10)[i].gainDB == Fin(0.0)
  {
    var peaks := PeakAmps(s);
    assert peaks[0] == s[0].peakAmp > 0.0;
    assert MaxOf(peaks) >= peaks[0];
    assert forall i :: 0 <= i < |s| ==> s[i].peakAmp >= 0.0;
    GainsAtMostZero(s, log10);
    LoudestGainIsZero(s, log10);
  }

  /**
   Without the optional steps, when every surviving frequency is positive
   the table holds every survivor, in order, and its first row is the
   reference partial at ratio 1.
   */
  lemma ConvertKeepsEverySurvivor(input: seq<Entry>, options: Options, c: Collaborators)
    requires WellFormed(input)
    requires !options.quantise && !options.oddOnly
    requires |Survivors(input)| > 0 && Survivors(input)[0].frequency > 0.0
    ensures Convert(input, options, c) == Table(Normalise(Survivors(input), c.log10), options.profileName)
    ensures Convert(input, options, c).partials[0].ratio == Fin(1.0)
  {
    PositiveReferenceKeepsAll(Survivors(input), c.log10);
  }

  /**
   One partial sampled at times 0 and 1, steady at 100 Hz, falling from
   amplitude 1 to 0.5: it survives, and without the optional steps the table
   has the single row ratio 1, 0 dB, decay 1.
   */
  lemma SinglePartialScenario(input: seq<Entry>, options: Options, c: Collaborators)
    requires input == [Entry("p0", PartialTrack(ScenarioTrack()))]
    requires !options.quantise && !options.oddOnly
    requires c.log10(1.0) == 0.0
    ensures Convert(input, options, c) == Table([Partial(Fin(1.0), Fin(0.0), Fin(1.0))], options.profileName)
  {
    var a := Analysed(100.0, 1.0, Fin(2.0), 0.0, 1.0, 0.5);
    ScenarioSurvivors(input);
    ScenarioNormalise(c.log10);
    ConvertSurvivorsAsTable(input, options, c, [a], [Partial(Fin(1.0), Fin(0.0), Fin(1.0))]);
  }

  /** Without the optional steps, survivors with a positive lowest frequency become the table of their normalisation. */
  lemma ConvertSurvivorsAsTable(input: seq<Entry>, options: Options, c: Collaborators, s: seq<Analysed>, rows: seq<Partial>)
    requires WellFormed(input)
    requires !options.quantise && !options.oddOnly
    requires Survivors(input) == s && |s| > 0 && s[0].frequency > 0.0
    requires Normalise(s, c.log10) == rows
    ensures Convert(input, options, c) == Table(rows, options.profileName)
  {
    ConvertKeepsEverySurvivor(input, options, c);
  }

  function ScenarioTrack(): Track {
    Track([0.0, 1.0], [100.0, 100.0], [1.0, 0.5])
  }

  lemma ScenarioAnalysis()
    ensures Analyse(ScenarioTrack(), 1.0, 1.0) == Some(Analysed(100.0, 1.0, Fin(2.0), 0.0, 1.0, 0.5))
  {
    var t := ScenarioTrack();
    assert Sum(t.freq) == 200.0 by {
      assert t.freq[..1] == [100.0];
      assert [100.0][..0] == [];
    }
    var squares := SquaredDeviations(t.freq, 100.0);
    assert squares == [0.0, 0.0];
    assert Sum(squares) == 0.0 by {
      assert squares[..1] == [0.0];
      assert [0.0][..0] == [];
    }
    assert Variance(t.freq) == 0.0;
    assert !CvExceeds(t.freq, MaxFrequencyCv);
    assert FirstMaxIndex(t.amp) == 0;
  }

  lemma ScenarioSurvivors(input: seq<Entry>)
    requires input == [Entry("p0", PartialTrack(ScenarioTrack()))]
    ensures WellFormed(input)
    ensures Survivors(input) == [Analysed(100.0, 1.0, Fin(2.0), 0.0, 1.0, 0.5)]
  {
    var a := Analysed(100.0, 1.0, Fin(2.0), 0.0, 1.0, 0.5);
    ScenarioCollected(input);
    assert SortByFrequency([a]) == [a] by {
      assert [a][..0] == [];
    }
  }

  lemma ScenarioCollected(input: seq<Entry>)
    requires input == [Entry("p0", PartialTrack(ScenarioTrack()))]
    ensures WellFormed(input)
    ensures FirstPass(input) == Extent(1.0, 1.0)
    ensures AnalyseAll(input, 1.0, 1.0) == [Analysed(100.0, 1.0, Fin(2.0), 0.0, 1.0, 0.5)]
  {
    assert input[..0] == [];
    assert FirstPass(input) == Extent(1.0, 1.0) by {
      assert MaxOf([1.0, 0.5]) == 1.0 by {
        assert [1.0, 0.5][..1] == [1.0];
      }
    }
    ScenarioAnalysis();
  }

  lemma ScenarioNormalise(log10: real -> real)
    requires log10(1.0) == 0.0
    ensures Normalise([Analysed(100.0, 1.0, Fin(2.0), 0.0, 1.0, 0.5)], log10) == [Partial(Fin(1.0), Fin(0.0), Fin(1.0))]
  {
    var a := Analysed(100.0, 1.0, Fin(2.0), 0.0, 1.0, 0.5);
    assert PeakAmps([a]) == [1.0];
    assert DecayValues([a]) == [Fin(2.0)];
    assert MaxOfNums([Fin(2.0)]) == Fin(2.0) by {
      assert [Fin(2.0)][..0] == [];
    }
    assert AmplitudeToDecibels(log10, 1.0, 1.0) == Fin(0.0);
  }
}

=== FILE: rounding.dfy ===
/**
 The integer-rounding helpers of the converter: `Math.round`,
 `roundToNearest` and `isEvenHarmonic`.
 */
module Rounding {
  import opened JsNumber

  function Abs(x: real): real {
    if x < 0.0 then -x else x
  }

  /** `Math.round(x)`: the nearest integer, halves rounded up (towards +Infinity). */
  function Round(x: real): (n: int)
    ensures x - 0.5 < n as real <= x + 0.5
  {
    (x + 0.5).Floor
  }

  /** An integer strictly within half a unit of `x` is `Math.round(x)`. */
  lemma RoundOfNear(x: real, n: int)
    requires n as real - 0.5 < x < n as real + 0.5
    ensures Round(x) == n
  {
    var r := Round(x);
    assert r as real < n as real + 1.0 && n as real - 1.0 < r as real;
  }

  /**
   `roundToNearest(value, nearest)`: `Math.round(value / nearest) * nearest`.
   A zero step divides by zero, and whatever `Math.round` makes of the
   resulting Infinity or NaN, multiplying it by zero gives NaN.
   */
  function RoundToNearest(value: real, nearest: real): (r: Num)
    ensures nearest == 0.0 <==> r.NaN?
    ensures nearest != 0.0 ==> r.Fin? && (r.v / nearest).Floor as real == r.v / nearest
    ensures nearest != 0.0 ==> Abs(r.v - value) <= Abs(nearest) / 2.0
    ensures nearest != 0.0 ==> value / nearest - 0.5 < r.v / nearest <= value / nearest + 0.5
  {
    if nearest == 0.0 then NaN
    else
      var q := value / nearest;
      var n := Round(q);
      var r := n as real * nearest;
      assert r / nearest == n as real;
      assert q * nearest == value;
      var d := n as real - q;
      assert r - value == d * nearest;
      HalfStep(d, nearest);
      assert Abs(r - value) == Abs(d * nearest);
      Fin(r)
  }

  /** An exact half step goes to the multiple `Math.round` picks: upwards in units of the step. */
  lemma RoundToNearestTies()
    ensures RoundToNearest(1.5, 1.0) == Fin(2.0)
    ensures RoundToNearest(1.5, -1.0) == Fin(1.0)
    ensures RoundToNearest(0.25, 0.5) == Fin(0.5)
  {
    assert Round(1.5) == 2;
    assert Round(-1.5) == -1;
    assert 0.25 / 0.5 == 0.5;
    assert Round(0.5) == 1;
  }

  lemma AbsProduct(a: real, b: real)
    ensures Abs(a * b) == Abs(a) * Abs(b)
  {
    if a < 0.0 && b < 0.0 {
      assert a * b == (-a) * (-b);
    } else if a < 0.0 {
      assert -(a * b) == (-a) * b;
      assert (-a) * b >= 0.0;
    } else if b < 0.0 {
      assert -(a * b) == a * (-b);
      assert a * (-b) >= 0.0;
    }
  }

  lemma HalfStep(d: real, s: real)
    requires -0.5 < d <= 0.5
    ensures Abs(d * s) <= Abs(s) / 2.0
  {
    AbsProduct(d, s);
    calc {
      Abs(d * s);
    ==
      Abs(d) * Abs(s);
    <=
      0.5 * Abs(s);
    ==
      Abs(s) / 2.0;
    }
  }

  /**
   `isEvenHarmonic(ratio)`: `Math.round(ratio)` is a positive even integer
   and the ratio lies strictly within 0.5 of it. The JavaScript tests evenness
   with JavaScript's truncating `%`; for the positive integers the `> 0`
   guard admits, it agrees with Dafny's `%`.
   */
  predicate IsEvenHarmonic(ratio: real) {
    var rounded := Round(ratio);
    if rounded % 2 == 0 && rounded > 0 then Abs(ratio - rounded as real) < 0.5 else false
  }

  /** `x` lies strictly within half a unit of the integer `n`. */
  predicate NearInteger(x: real, n: int) {
    n as real - 0.5 < x < n as real + 0.5
  }

  /**
   A ratio is an even harmonic exactly when it lies strictly within half a
   unit of some positive even integer: 1.5 and 2.5 are not, 1.6 and 2.4 are.
   */
  lemma IsEvenHarmonicIff(ratio: real)
    ensures IsEvenHarmonic(ratio) <==> exists n :: n > 0 && n % 2 == 0 && NearInteger(ratio, n)
  {
    var rounded := Round(ratio);
    if IsEvenHarmonic(ratio) {
      assert NearInteger(ratio, rounded);
    }
    if exists n :: n > 0 && n % 2 == 0 && NearInteger(ratio, n) {
      var n :| n > 0 && n % 2 == 0 && NearInteger(ratio, n);
      RoundOfNear(ratio, n);
    }
  }

  /** Examples: 2, 1.6, 2.4 and 4.49 are even harmonics; 3, 2.6, 1.5, 2.5, 0, -2 and 0.2 are not. */
  lemma IsEvenHarmonicExamples()
    ensures IsEvenHarmonic(2.0)
    ensures IsEvenHarmonic(1.6) && IsEvenHarmonic(2.4) && IsEvenHarmonic(4.49)
    ensures !IsEvenHarmonic(3.0) && !IsEvenHarmonic(2.6) && !IsEvenHarmonic(1.5) && !IsEvenHarmonic(2.5)
    ensures !IsEvenHarmonic(0.0) && !IsEvenHarmonic(-2.0) && !IsEvenHarmonic(0.2)
  {
    RoundOfNear(2.0, 2);
    RoundOfNear(1.6, 2);
    RoundOfNear(2.4, 2);
    RoundOfNear(4.49, 4);
    RoundOfNear(3.0, 3);
    RoundOfNear(2.6, 3);
    RoundOfNear(0.0, 0);
    RoundOfNear(-2.0, -2);
    RoundOfNear(0.2, 0);
    assert Round(1.5) == 2;
    assert Round(2.5) == 3;
  }
}

=== FILE: stats.dfy ===
/**
 The numeric helpers of the converter: `average`, `standardDeviation`,
 `coefficientOfVariation`, `indexOfMax` and the `Math.max(...xs)` the
 first pass applies to an amplitude sequence, over finite reals.
 */
module Stats {
  import opened JsNumber

  function Last(xs: seq<real>): real
    requires |xs| > 0
  {
    xs[|xs| - 1]
  }

  /** `values.reduce((sum, val) => sum + val, 0)`, folding from the left. */
  function Sum(xs: seq<real>): real {
    if |xs| == 0 then 0.0 else Sum(xs[..|xs| - 1]) + xs[|xs| - 1]
  }

  /** A sum of non-negative terms is non-negative. */
  lemma {:induction false} SumNonNegative(xs: seq<real>)
    requires forall i :: 0 <= i < |xs| ==> xs[i] >= 0.0
    ensures Sum(xs) >= 0.0
  {
    if |xs| > 0 {
      var prefix := xs[..|xs| - 1];
      assert forall i :: 0 <= i < |prefix| ==> prefix[i] == xs[i];
      SumNonNegative(prefix);
    }
  }

  /** `average(values)`: the arithmetic mean. */
  function Average(xs: seq<real>): real
    requires |xs| > 0
  {
    Sum(xs) / |xs| as real
  }

  /** The mean of samples in `[lo, hi]` lies in `[lo, hi]`; in particular a constant sequence averages to its value. */
  lemma AverageBetween(xs: seq<real>, lo: real, hi: real)
    requires |xs| > 0
    requires forall i :: 0 <= i < |xs| ==> lo <= xs[i] <= hi
    ensures lo <= Average(xs) <= hi
  {
    SumBetween(xs, lo, hi);
    QuotientBetween(Sum(xs), |xs| as real, lo, hi);
  }

  /** A sum of `n` terms in `[lo, hi]` lies in `[n * lo, n * hi]`. */
  lemma {:induction false} SumBetween(xs: seq<real>, lo: real, hi: real)
    requires forall i :: 0 <= i < |xs| ==> lo <= xs[i] <= hi
    ensures |xs| as real * lo <= Sum(xs) <= |xs| as real * hi
  {
    if |xs| > 0 {
      var prefix := xs[..|xs| - 1];
      assert forall i :: 0 <= i < |prefix| ==> prefix[i] == xs[i];
      SumBetween(prefix, lo, hi);
      assert |xs| as real * lo == |prefix| as real * lo + lo;
      assert |xs| as real * hi == |prefix| as real * hi + hi;
    }
  }

  lemma QuotientBetween(total: real, n: real, lo: real, hi: real)
    requires n > 0.0 && n * lo <= total <= n * hi
    ensures lo <= total / n <= hi
  {
    var m := total / n;
    assert m * n == total;
  }

  /** The `squareDiffs` of `standardDeviation`: `Math.pow(val - avg, 2)` per sample. */
  function SquaredDeviations(xs: seq<real>, m: real): seq<real> {
    seq(|xs|, i requires 0 <= i < |xs| => (xs[i] - m) * (xs[i] - m))
  }

  /** Population variance (divided by N): the argument `standardDeviation` passes to
      `Math.sqrt`, which is therefore never negative. */
  function Variance(xs: seq<real>): (r: real)
    requires |xs| > 0
    ensures r >= 0.0
  {
    var squares := SquaredDeviations(xs, Average(xs));
    SumNonNegative(squares);
    Sum(squares) / |xs| as real
  }

  /** A sum of non-negative terms is zero exactly when every term is. */
  lemma {:induction false} SumZeroIff(ys: seq<real>)
    requires forall i :: 0 <= i < |ys| ==> ys[i] >= 0.0
    ensures Sum(ys) == 0.0 <==> forall i :: 0 <= i < |ys| ==> ys[i] == 0.0
  {
    if |ys| > 0 {
      var prefix := ys[..|ys| - 1];
      assert forall i :: 0 <= i < |prefix| ==> prefix[i] == ys[i];
      SumZeroIff(prefix);
      SumNonNegative(prefix);
    }
  }

  /** A square `sq == d * d` is non-negative, and zero exactly when `d` is. */
  lemma SquareZero(sq: real, d: real)
    requires sq == d * d
    ensures sq >= 0.0
    ensures d != 0.0 ==> sq > 0.0
    ensures d == 0.0 ==> sq == 0.0
  {
    if d != 0.0 {
      calc {
        sq;
      ==
        d * d;
      >
        0.0;
      }
    }
  }

  /** The variance is zero exactly when every sample equals the mean. */
  lemma VarianceZeroIff(xs: seq<real>)
    requires |xs| > 0
    ensures Variance(xs) == 0.0 <==> forall i :: 0 <= i < |xs| ==> xs[i] == Average(xs)
  {
    var m := Average(xs);
    var squares := SquaredDeviations(xs, m);
    forall i | 0 <= i < |xs|
      ensures squares[i] >= 0.0
      ensures xs[i] == m ==> squares[i] == 0.0
      ensures xs[i] != m ==> squares[i] > 0.0
    {
      var d := xs[i] - m;
      SquareZero(squares[i], d);
    }
    SumZeroIff(squares);
    var n := |xs| as real;
    var v := Sum(squares) / n;
    assert v * n == Sum(squares);
  }

  /** Two samples `a` and `b` have variance `((a - b) / 2)^2`. */
  lemma VarianceOfTwo(a: real, b: real)
    ensures Variance([a, b]) == (a - b) * (a - b) / 4.0
  {
    var xs := [a, b];
    assert xs[..1] == [a] && [a][..0] == [];
    assert Sum([a]) == a;
    assert Sum(xs) == a + b;
    var m := (a + b) / 2.0;
    assert Average(xs) == m;
    var squares := SquaredDeviations(xs, m);
    assert |squares| == 2 && squares[0] == (a - m) * (a - m) && squares[1] == (b - m) * (b - m);
    assert squares[..1] == [(a - m) * (a - m)];
    assert Sum(squares[..1]) == (a - m) * (a - m) by {
      assert squares[..1][..0] == [];
    }
    assert (a - m) * (a - m) == (a - b) * (a - b) / 4.0;
    assert (b - m) * (b - m) == (a - b) * (a - b) / 4.0;
    assert Sum(squares) == (a - b) * (a - b) / 2.0;
  }

  /** Samples that all share one value never exceed a non-negative limit. */
  lemma ConstantNeverExceeds(xs: seq<real>, limit: real)
    requires |xs| > 0 && limit >= 0.0
    requires forall i :: 0 <= i < |xs| ==> xs[i] == xs[0]
    ensures !CvExceeds(xs, limit)
  {
    AverageBetween(xs, xs[0], xs[0]);
    VarianceZeroIff(xs);
    var m := Average(xs);
    if m > 0.0 {
      assert limit * limit * m * m >= 0.0;
    }
  }

  /**
   `coefficientOfVariation(xs) > limit`, decided without a square root.
   With a positive mean the test is `variance > (limit * mean)^2`; with a
   negative mean the quotient is never above a non-negative limit; with a zero
   mean JavaScript divides by zero, which gives Infinity (above the limit)
   when the deviation is positive and NaN (not above it) when it is zero.
   */
  predicate CvExceeds(xs: seq<real>, limit: real)
    requires |xs| > 0
  {
    var m := Average(xs);
    if m > 0.0 then Variance(xs) > limit * limit * m * m
    else if m < 0.0 then false
    else Variance(xs) > 0.0
  }

  lemma PositiveSquare(a: real)
    requires a > 0.0
    ensures a * a > 0.0
  {
  }

  lemma QuotientByNegative(a: real, b: real)
    requires a >= 0.0 && b < 0.0
    ensures a / b <= 0.0
  {
    assert a / b == -(a / -b);
  }

  /** For non-negative reals, comparing squares is comparing the values. */
  lemma SquareMonotone(a: real, b: real)
    requires a >= 0.0 && b >= 0.0
    ensures a > b <==> a * a > b * b
  {
    if a > b {
      assert a * a >= a * b >= b * b;
      assert a * a > b * b by {
        assert a * a - b * b == (a - b) * (a + b);
        assert (a - b) > 0.0 && (a + b) > 0.0;
      }
    } else {
      assert b * b >= b * a >= a * a;
    }
  }

  /**
   The JavaScript test `standardDeviation(xs) / average(xs) > limit`, with
   `sd` any non-negative square root of the variance, decides exactly as
   `CvExceeds` does, including the division by a zero mean.
   */
  lemma CvTestWithoutSqrt(xs: seq<real>, sd: real, limit: real)
    requires |xs| > 0
    requires sd >= 0.0 && sd * sd == Variance(xs)
    requires limit >= 0.0
    ensures Gt(Div(Fin(sd), Fin(Average(xs))), Fin(limit)) <==> CvExceeds(xs, limit)
  {
    var m := Average(xs);
    if m > 0.0 {
      var q := sd / m;
      assert Div(Fin(sd), Fin(m)) == Fin(q);
      assert q > limit <==> sd > limit * m by {
        assert q * m == sd;
        if q > limit {
          assert q * m > limit * m;
        } else {
          assert q * m <= limit * m;
        }
      }
      SquareMonotone(sd, limit * m);
      assert (limit * m) * (limit * m) == limit * limit * m * m;
    } else if m < 0.0 {
      var q := sd / m;
      assert Div(Fin(sd), Fin(m)) == Fin(q);
      QuotientByNegative(sd, m);
    } else {
      if sd > 0.0 {
        assert Div(Fin(sd), Fin(m)) == PosInf;
        assert Gt(PosInf, Fin(limit));
        PositiveSquare(sd);
        calc {
          Variance(xs);
        ==
          sd * sd;
        >
          0.0;
        }
      } else {
        assert Div(Fin(sd), Fin(m)) == NaN;
        assert Variance(xs) == 0.0;
      }
    }
  }

  function RealMax(a: real, b: real): real {
    if b > a then b else a
  }

  /** `Math.max(...xs)` over a non-empty sequence of finite numbers. */
  function MaxOf(xs: seq<real>): (r: real)
    requires |xs| > 0
    ensures r in xs
    ensures forall i :: 0 <= i < |xs| ==> xs[i] <= r
  {
    if |xs| == 1 then xs[0]
    else
      var prefix := xs[..|xs| - 1];
      assert forall i :: 0 <= i < |prefix| ==> prefix[i] == xs[i];
      RealMax(MaxOf(prefix), Last(xs))
  }

  /** `k` is the first index among the first `n` samples holding their maximum. */
  ghost predicate IsFirstMaxOfPrefix(xs: seq<real>, n: nat, k: nat) {
    && k < n <= |xs|
    && (forall j :: 0 <= j < n ==> xs[j] <= xs[k])
    && (forall j :: 0 <= j < k ==> xs[j] < xs[k])
  }

  ghost predicate IsFirstMax(xs: seq<real>, k: nat) {
    IsFirstMaxOfPrefix(xs, |xs|, k)
  }

  /** There is only one first maximum. */
  lemma FirstMaxUnique(xs: seq<real>, n: nat, k1: nat, k2: nat)
    requires IsFirstMaxOfPrefix(xs, n, k1) && IsFirstMaxOfPrefix(xs, n, k2)
    ensures k1 == k2
  {
    assert xs[k1] == xs[k2];
  }

  /** The index `indexOfMax` holds after scanning the first `n` samples. */
  function FirstMaxOfPrefix(xs: seq<real>, n: nat): (k: nat)
    requires 0 < n <= |xs|
    ensures IsFirstMaxOfPrefix(xs, n, k)
  {
    if n == 1 then 0
    else
      var k := FirstMaxOfPrefix(xs, n - 1);
      if xs[n - 1] > xs[k] then n - 1 else k
  }

  /** The functional reading of `indexOfMax`. */
  function FirstMaxIndex(xs: seq<real>): (k: nat)
    requires |xs| > 0
    ensures IsFirstMax(xs, k)
  {
    FirstMaxOfPrefix(xs, |xs|)
  }

  /** The sample at the first maximum is the maximum `Math.max(...xs)` computes. */
  lemma FirstMaxIsMaxOf(xs: seq<real>)
    requires |xs| > 0
    ensures xs[FirstMaxIndex(xs)] == MaxOf(xs)
  {
    var k := FirstMaxIndex(xs);
    var m := MaxOf(xs);
    var j :| 0 <= j < |xs| && xs[j] == m;
    assert xs[j] <= xs[k] && xs[k] <= m;
  }

  /** `indexOfMax`: the strict `>` of the scan keeps the earliest of equal maxima. */
  method IndexOfMax(xs: seq<real>) returns (k: nat)
    requires |xs| > 0
    ensures k < |xs|
    ensures forall j :: 0 <= j < |xs| ==> xs[j] <= xs[k]
    ensures forall j :: 0 <= j < k ==> xs[j] < xs[k]
    ensures k == FirstMaxIndex(xs)
  {
    k := 0;
    var maxValue := xs[0];
    var i := 1;
    while i < |xs|
      invariant 1 <= i <= |xs|
      invariant k < i && maxValue == xs[k]
      invariant forall j :: 0 <= j < i ==> xs[j] <= maxValue
      invariant forall j :: 0 <= j < k ==> xs[j] < maxValue
      invariant k == FirstMaxOfPrefix(xs, i)
    {
      if xs[i] > maxValue {
        maxValue := xs[i];
        k := i;
      }
      i := i + 1;
    }
  }
}

=== FILE: wrappers.dfy ===
/** The Some/None wrapper used where the analyser rejects a partial track
    (the JavaScript returns `null`). */
module Wrappers {

  datatype Option<+T> = None | Some(value: T)
}
